=== FILE: README.md ===
# SignacGA in Dafny

A model of the "Hello, World!" genetic algorithm built on signac and
signac-flow. It covers three parts:

- the character-level operators of `util.py`: the clamp, crossover and
  point mutation;
- the cost function, which appears twice: in `init.py` and inline in
  `project.py`'s `calcCost`;
- the workflow of `project.py`. This covers the label predicates, the two
  gated operations `calcCost` and `nextGeneration`, the flow scheduler that
  repeatedly runs eligible operations, and the bootstrap state that
  `init.py`'s `main` builds.

The job store is an immutable map from state point to job document. A job's
identity is its state point, so re-opening an identical state point yields
the same job. Every random draw is an explicit parameter:

- each `_mutate` call gets its coin, position and direction;
- each member of the initial population gets its `randint` code points.

The order in which `find_jobs` lists a generation is a parameter too. Each
job's md5 id enters only as the sort tie-break, through a parameter
`idOf: StatePoint -> JobId`.

Modules:

- `Wrappers`, `Errors`, `Seqs`: `Option`/`Result`, the Python exceptions
  that occur (TypeError, ValueError, IndexError), and small facts about
  sequences.
- `Genetic` (util.py): `preventOverflow`, `_mate`, `_mutate`.
- `Fitness` (init.py `_calcCost`, project.py:93-95): the cost, including
  numpy broadcasting of a length-1 operand and the ValueError for any other
  length mismatch.
- `Store`: `open_job().init()`, document writes, and `find_jobs` filters.
- `Ranking`: the structured-array sort by `(cost, id)`, and the `sortDict`
  table.
- `Workflow` (project.py): labels, `getSimJobs`, `getRankJobs`, `calcCost`
  and `nextGeneration`.
- `Scheduler`: flow's run loop over requested operations, its invariants,
  and the stall described under Findings.
- `Bootstrap` (init.py): `randomString` and `main`.

Some behaviour of the code that the model keeps exactly:

- The cost is the square of the summed code-point differences,
  `(OrdSum(code) - OrdSum(goal))²`. So cost 0 does not imply `code == goal`.
- Code and goal may differ in length. numpy broadcasts a length-1 operand,
  and any other mismatch raises ValueError.
- Mutation clamps code points to [32, 127], while `randomString` draws from
  [32, 126].
- A failed mutation coin makes `_mutate` return `None`, and nextGeneration
  stores that `None` as the child's code (see Findings).
- Identical codes collapse into one job, so a generation can be smaller
  than the population size.

## Model

| member | source | states |
|---|---|---|
| Genetic.PreventOverflow | util.py:3-8 | the result lies in [32, 127], is the input when the input is already in range, and is the point of [32, 127] closest to the input |
| Genetic.PreventOverflowIdempotent | util.py:3-8 | clamping twice is clamping once |
| Genetic.Mate | util.py:10-17 | the two children together hold exactly the parents' characters (multiset), whatever the lengths; for equal-length parents both children have that length, each position hands the pair of parent characters to the two children, and the first child is `codeA` before `len(codeA) // 2` and `codeB` from there on |
| Genetic.MateSelf | util.py:14-16 | mating a code with itself returns `(code, code)` |
| Genetic.MateSwap | util.py:14-16 | for equal-length parents, swapping the parents swaps the children |
| Genetic.MutationIndex | util.py:27 | `int(r * len)` with r in [0, 1) lies in [0, len) for a non-empty code, and is 0 for an empty one |
| Genetic.Mutate | util.py:19-32 | `None` exactly when the coin exceeds the probability; IndexError exactly when the coin passes and the code is empty; otherwise a code of the same length that differs only at the drawn index, which holds the clamped neighbour of the old code point |
| Genetic.MutationStaysInRange | util.py:24-31 | with a passing coin a non-empty code always mutates; a code inside [32, 127] stays inside, and the changed character moves by at most one code point |
| Fitness.ElementwiseIsDifferenceOfTotals | init.py:25 | the sum of position-wise code-point differences equals the difference of the two totals |
| Fitness.CalcCost | init.py:17-26 | succeeds exactly when numpy can broadcast the lengths, and otherwise raises ValueError; the cost is non-negative; it is the squared difference of the code-point totals, with a length-1 operand compared against every character of the other |
| Fitness.CalcCostSymmetric | init.py:23-25 | swapping code and goal does not change the outcome, for all lengths |
| Fitness.CalcCostIgnoresOrder | init.py:23-25 | any reordering of the code's characters has the same outcome, for every length pair: the same cost, or the same ValueError |
| Fitness.CalcCostOfGoal | init.py:23-25 | the goal itself costs 0 |
| Fitness.ZeroCostWithoutMatch | init.py:23-25 | "AC" costs 0 against "BB" although the two differ, so cost 0 is not equality |
| Store.Open | project.py:130 | opening adds the state point with an empty document if it is new, and leaves every existing job's document alone |
| Store.OpenIdempotent | project.py:130-131 | opening the same state point twice is opening it once |
| Store.SetGeneration | project.py:130-132 | the opened job gets the generation, keeps any cost it had, and no other job changes |
| Store.NothingIsRanked | project.py:46 | no document holds `rank`, so a filter that requires one finds nothing |
| Workflow.GetSimJobs | project.py:25-38 | ValueError exactly for a selector that is neither a bool nor `None`; otherwise exactly the members with or without a cost, or every member |
| Workflow.GetRankJobs | project.py:40-51 | ValueError exactly for a non-bool, non-`None` selector; `True` finds nothing; `False` finds exactly the jobs the `inGeneration` label holds for; `None` finds every member |
| Scheduler.RunKeepsSoleMaster | project.py:19-23 | `isMaster` singles out one job for good: a project with a single master keeps exactly that master over any run, because no job is ever removed and every job an operation creates is a member (`master=False`) |
| Scheduler.OptimizedIsFinal | project.py:63-72 | once `optimized` holds (past generation 1000, or the project document holds `optimized`), no operation is eligible and the label stays true: the project is finished |
| Workflow.UncostedEmptyIff | project.py:25-38 | `getSimJobs(job, simulated=False)` is empty exactly when every member, of every generation, has a cost |
| Workflow.Simulated | project.py:56-61 | for a member, holds exactly when it has a cost; for the master, exactly when every member of every generation has a cost |
| Workflow.InGeneration | project.py:74-81 | holds exactly for the jobs nextGeneration's `find_jobs` query returns for the current generation: members whose `generation` is `n`, never the master |
| Workflow.CalcCost | project.py:83-98 | raises exactly for a `None` code (TypeError) or unbroadcastable lengths (ValueError), and then changes nothing; otherwise it stores the cost of the code, keeps the generation, leaves other jobs and `n` alone, makes `simulated` hold and itself ineligible, and sets `optimized` exactly when the cost is 0 |
| Workflow.CalcCostsCommute | project.py:83-98 | costing two members in either order gives the same store when neither cost is 0 |
| Workflow.GenerationIsCosted | project.py:101-109 | when nextGeneration is eligible, every job of the current generation has a cost |
| Ranking.Sort | project.py:111-112 | the result is sorted by `(cost, id)` and is a permutation of the input |
| Ranking.SortKeepsElements | project.py:111-112 | sorting keeps exactly the input's entries, and introduces no duplicates |
| Ranking.SortedUnique | project.py:111-112 | two duplicate-free sorted sequences of the same entries are equal when ids identify entries, so the ranking has no ties left to break |
| Workflow.Ranked | project.py:109-112 | the ranking is sorted, lists each job of the generation exactly once, and each record carries the job's id and stored cost |
| Workflow.RankingIgnoresListingOrder | project.py:109-112 | when ids identify jobs, the order `find_jobs` lists the generation in does not change the ranking |
| Ranking.RankTable | project.py:113-118 | the table's keys are exactly the ranked jobs, each mapped to its cost and its position, so the ranks are exactly 0 .. k-1 |
| Workflow.ChildCode | project.py:124 | on a failed coin the child's code is `None` as written (the parent's code under the corrected policy), whatever the parent's code; after a passing coin it is the parent's code mutated at the drawn index, and a `None` parent code raises TypeError and an empty one IndexError |
| Workflow.ChildOf | project.py:124-129 | a child copies the parent's goal and seed, has `length = len(goal)`, and carries the mutated code; it fails exactly when the mutation does |
| Workflow.Offspring | project.py:120-130 | the children are those of the ranked parents in ranking order, up to the first parent whose mutation raises, together with that exception |
| Workflow.WriteGenerations | project.py:130-132 | every child is placed in the given generation; costs survive, new jobs have none, and jobs that are not children are untouched |
| Workflow.WritePromotesAtMost | project.py:130-132 | the jobs moved into the generation are among the children, so there are at most as many as there are children |
| Workflow.Breed | project.py:120-133 | (through `Bred`) raises exactly when some parent's mutation raises, and then leaves the project document alone; otherwise advances `n` by one and every ranked job's child is in generation n + 1; no job disappears and no cost changes; changed or new jobs are members in generation n + 1, at most k of them; the only jobs created or changed are children of ranked parents, so every other job is left as it was; an exception is that of the first parent whose mutation raises, and only the children of the parents ranked before it are written |
| Workflow.NextGeneration | project.py:100-133 | on an eligible master the current generation is fully costed, and the outcome is that of breeding from its `(cost, id)` ranking, with all the facts `Bred` lists for Breed, including that only the children are created or changed and that an exception stops the breeding at the first parent whose mutation raises |
| Scheduler.Step | project.py:83-133 | an ineligible operation changes nothing; jobs, costs, the `optimized` flag and `n` are never taken back; an operation that raises leaves the project document unchanged; no operation creates a master; only a completed nextGeneration moves `n`, by one; `n` never passes 1001; stored costs stay the costs of their codes |
| Scheduler.Run | project.py:83-133 | over any sequence of requests, jobs, costs, the `optimized` flag and `n` are never taken back; `n` grows by at most the number of nextGeneration requests and never passes 1001; stored costs stay the costs of their codes; once optimized, nothing runs at all |
| Scheduler.RunAppend | project.py:83-133 | running two request sequences back to back is running their concatenation |
| Scheduler.CostingKeepsGeneration | project.py:83-98 | a run of calcCost requests alone never changes `n` |
| Scheduler.NoGenerationWhileUncosted | project.py:56-61 | while some member lacks a cost, no master can run nextGeneration |
| Scheduler.CodelessMemberBlocksProgress | project.py:93-95 | a member whose code is `None` can never be costed, so no sequence of operations changes `n` again |
| Scheduler.ValidParentsBreed | project.py:124 | in a valid store every parent breeds a child whatever the draws; under the corrected policy the child is well formed |
| Scheduler.SkippedMutationStallsRun | project.py:124-130 | as written, a failed coin for the first ranked parent completes nextGeneration but leaves `n` at that value forever after, whatever runs next |
| Scheduler.CorrectedStepPreservesValid | project.py:83-133 | under the corrected policy every step of a valid project completes and keeps it valid |
| Scheduler.CorrectedRunStaysValid | project.py:83-133 | under the corrected policy every run of a valid project completes and keeps it valid |
| Scheduler.CostEveryMember | project.py:83-98 | under the corrected policy, costing every uncosted member of a valid project completes, keeps it valid and its jobs and `n` unchanged, and leaves every member costed unless a zero cost set `optimized` |
| Scheduler.BreedingAdvances | project.py:100-133 | under the corrected policy, once every member of a valid unfinished project is costed, the master's nextGeneration completes and advances `n` by one |
| Scheduler.CorrectedGenerationCanComplete | project.py:83-133 | under the corrected policy an unfinished valid project can always cost its members and then breed, either finishing with `optimized` or advancing `n` by exactly one |
| Bootstrap.RandomString | init.py:28-36 | the string has the requested length, its code points are the draws, and each lies in [32, 126] and therefore inside the mutation clamp range |
| Bootstrap.InitProject | init.py:38-74 | `n = 0` and no `optimized` flag; exactly one master, which `Scheduler.RunKeepsSoleMaster` then keeps; every job in generation 0 and uncosted; the members are exactly the drawn codes, at most `n` of them, and exactly `n` when no two codes coincide; every member is in the current generation and the project is valid |

## Left out

- The commented-out breeding operation (project.py:137-205) is dead code and is not modelled.
- `sortDict` (project.py:113-118) is built but never read afterwards. `Ranking.RankTable` models its contents only.
- The `print` at project.py:121, logging, CLI parsing, and the sha1 seed hashing (init.py:77-96) are I/O and not modelled.
- The `time`, `njobs` and `members: None` entries of the project document (init.py:48-51) are not modelled, because nothing reads them.
- numpy's RNG state and `np.random.seed` are not modelled. The model takes the draws as parameters, so it does not tie how many draws a call consumes to the seed.
- Random draws are reals in [0, 1), with exact arithmetic rather than IEEE doubles.
- md5 job ids are a parameter. Reopening a job by id (project.py:123) is modelled as the ranked job itself, which assumes no id collisions. Ids are 32-character hex strings, so the `|S32` field never truncates them.
- Costs are unbounded integers. numpy's int64 overflow cannot occur with 13-character codes.
- `init.py`'s `main` is modelled on an empty data space. Re-running it over an existing project, and `init_project` itself, are not modelled.
- flow plumbing (`FlowProject`, decorators, `Project().main()`) and concurrent workers are not modelled. The scheduler runs operations one at a time, and a run stops at its first exception.
- Scheduler.Step: a nextGeneration request whose listing or draws do not fit the store is treated as skipped, since it describes no possible execution.
- Pruning of old generations and population top-up do not exist in the code and are not modelled.

## Findings

| source | as written | input that shows it | evidently intended | confidence | as-written member | corrected member |
|---|---|---|---|---|---|---|
| project.py:124-130 | when the mutation coin fails, `_mutate` returns `None` (util.py:24-25), and nextGeneration stores that `None` as the child's `code`. calcCost then raises TypeError on that child every time, so it never gets a cost, the master is never `simulated` again, and the generation counter stops for good | a valid store whose current generation is non-empty and fully costed, with the first ranked parent's coin draw at 0.7 | a skipped mutation passes the parent's code on unchanged, so the next generation can always be costed and bred | not executed | Scheduler.SkippedMutationStallsRun | Scheduler.CorrectedGenerationCanComplete |

The choice between the two behaviours is the `SkipPolicy` parameter of the
workflow:

- `ChildCodeNone` is the code as written.
- `ChildKeepsParentCode` is the corrected version.

The as-written half rests on `Scheduler.CodelessMemberBlocksProgress`. The
corrected half rests on `Scheduler.CorrectedStepPreservesValid` and
`Scheduler.CorrectedRunStaysValid`.

=== FILE: bootstrap.dfy ===
/** init.py: a fresh project with one master job and a random population of
    codes for the goal "Hello, World!", all in generation 0.

    numpy's `randint` draws are an explicit parameter: `draws[k]` are the
    code points drawn for the k-th member. */
module Bootstrap {
  import opened Wrappers
  import opened Seqs
  import opened Store
  import opened Workflow
  import opened Scheduler
  import Genetic

  const Goal: string := "Hello, World!"

  /** The code points `randint(low=32, high=127)` can return. */
  predicate PrintableDraws(draws: seq<int>)
  {
    forall j | 0 <= j < |draws| :: 32 <= draws[j] < 127
  }

  /** `randomString`: the characters of the drawn code points. */
  function RandomString(length: nat, draws: seq<int>): (r: string)
    requires |draws| == length && PrintableDraws(draws)
    ensures |r| == length
    // reading the code points back gives the draws
    ensures forall j | 0 <= j < length :: r[j] as int == draws[j]
    // printable, and inside the range mutation clamps to
    ensures forall j | 0 <= j < length :: 32 <= r[j] as int <= 126
    ensures Genetic.InClampRange(r)
  {
    seq(length, j requires 0 <= j < length && |draws| == length && PrintableDraws(draws) => draws[j] as char)
  }

  /** The member state point init.py writes for one set of draws. */
  function Candidate(draws: seq<int>, seed: int): StatePoint
    requires |draws| == |Goal| && PrintableDraws(draws)
  {
    Member(|Goal|, Goal, Some(RandomString(|Goal|, draws)), seed)
  }

  predicate AllPrintable(draws: seq<seq<int>>)
  {
    forall k | 0 <= k < |draws| :: |draws[k]| == |Goal| && PrintableDraws(draws[k])
  }

  /** The candidates of all draws, in drawing order. */
  function Candidates(draws: seq<seq<int>>, seed: int): (cs: seq<StatePoint>)
    requires AllPrintable(draws)
    ensures |cs| == |draws|
    ensures forall k | 0 <= k < |draws| :: cs[k] == Candidate(draws[k], seed)
  {
    seq(|draws|, k requires 0 <= k < |draws| && AllPrintable(draws) => Candidate(draws[k], seed))
  }

  /** The population members in a store. */
  function MemberSet(jobs: Jobs): set<StatePoint>
  {
    set sp | sp in jobs && sp.Member?
  }

  /** `main(n, seed)` on an empty data space. Identical random codes open the
      same job, so the population can be smaller than `n`. */
  method InitProject(n: int, seed: int, draws: seq<seq<int>>) returns (s: State)
    requires |draws| == (if n > 0 then n else 0)
    requires AllPrintable(draws)
    ensures s.project == ProjectDoc(0, false)
    // one master job, in generation 0
    ensures Master(Goal, seed) in s.jobs
    ensures forall sp | sp in s.jobs && sp.Master? :: sp == Master(Goal, seed)
    ensures SoleMaster(s, Master(Goal, seed))
    // every job is in generation 0 and nothing is costed yet
    ensures forall sp | sp in s.jobs :: s.jobs[sp] == Doc(Some(0), None)
    // the members are exactly the drawn codes, one job per distinct code
    ensures MemberSet(s.jobs) == Elems(Candidates(draws, seed))
    ensures |MemberSet(s.jobs)| <= |draws|
    ensures |MemberSet(s.jobs)| == |draws| <==> NoDup(Candidates(draws, seed))
    // every member belongs to the current generation, and the project is valid
    ensures forall sp | sp in s.jobs && sp.Member? :: InGeneration(s, sp)
    ensures Valid(s)
  {
    var master := Master(Goal, seed);
    var jobs := SetGeneration(map[], master, 0);
    var cs := Candidates(draws, seed);
    var i := 0;
    while i < |draws|
      invariant 0 <= i <= |draws|
      invariant master in jobs
      invariant forall sp | sp in jobs && sp.Master? :: sp == master
      invariant forall sp | sp in jobs :: jobs[sp] == Doc(Some(0), None)
      invariant MemberSet(jobs) == Elems(cs[..i])
    {
      var code := RandomString(|Goal|, draws[i]);
      var before := jobs;
      jobs := SetGeneration(jobs, Member(|Goal|, Goal, Some(code), seed), 0);
      assert cs[..i + 1] == cs[..i] + [cs[i]];
      assert Elems(cs[..i + 1]) == Elems(cs[..i]) + {cs[i]};
      assert MemberSet(jobs) == MemberSet(before) + {cs[i]};
      i := i + 1;
    }
    assert cs[..i] == cs;
    ElemsCardinality(cs);
    s := State(ProjectDoc(0, false), jobs);
    forall sp | sp in s.jobs && sp.Member? ensures WellFormed(sp) {
      assert sp in Elems(cs);
    }
  }
}

=== FILE: errors.dfy ===
/** The Python exceptions the modelled code can raise. */
module Errors {

  datatype PyError =
    | TypeError   // iterating over or taking the length of `None`
    | ValueError  // a bad selector, or numpy shapes that cannot be broadcast together
    | IndexError  // indexing into an empty list
}

=== FILE: fitness.dfy ===
/** The cost of a candidate code against the goal (`_calcCost` in init.py and
    the same computation inlined in project.py's `calcCost`).

    The code squares the SUM of the code-point differences; it does not sum
    their squares. The cost is therefore the squared difference of the two
    strings' code-point totals, and cost 0 does not mean the code equals the
    goal. */
module Fitness {
  import opened Wrappers
  import opened Errors

  function Ord(c: char): int
  {
    c as int
  }

  function Square(x: int): int
  {
    x * x
  }

  /** Sum of the code points of `s`. */
  function OrdSum(s: string): int
    decreases |s|
  {
    if |s| == 0 then 0 else Ord(s[0]) + OrdSum(s[1..])
  }

  /** `np.sum(a - b)` for two arrays of one shape. */
  function ElementwiseDiffSum(a: string, b: string): int
    requires |a| == |b|
    decreases |a|
  {
    if |a| == 0 then 0 else (Ord(a[0]) - Ord(b[0])) + ElementwiseDiffSum(a[1..], b[1..])
  }

  /** A length-1 operand stretched to `k` elements, as numpy broadcasting does. */
  function Repeat(c: char, k: nat): (r: string)
    ensures |r| == k
    ensures forall i | 0 <= i < k :: r[i] == c
  {
    seq(k, _ => c)
  }

  /** numpy can subtract a 1-D array of length `m` from one of length `k`. */
  predicate Broadcastable(m: nat, k: nat)
  {
    m == k || m == 1 || k == 1
  }

  /** `np.sum(costCode - costGoal)`, with numpy's broadcasting of a length-1
      operand and its ValueError for any other length mismatch. */
  function DiffSum(code: string, goal: string): Result<int, PyError>
  {
    if |code| == |goal| then Success(ElementwiseDiffSum(code, goal))
    else if |goal| == 1 then Success(ElementwiseDiffSum(code, Repeat(goal[0], |code|)))
    else if |code| == 1 then Success(ElementwiseDiffSum(Repeat(code[0], |goal|), goal))
    else Failure(ValueError)
  }

  /** `int(np.power(np.sum(costCode - costGoal), 2))`. */
  function CalcCost(code: string, goal: string): (r: Result<int, PyError>)
    ensures r.Success? <==> Broadcastable(|code|, |goal|)
    ensures r.Failure? ==> r.error == ValueError
    ensures r.Success? ==> r.value >= 0
    // for equal lengths: the squared difference of the code-point totals
    ensures |code| == |goal| ==> r == Success(Square(OrdSum(code) - OrdSum(goal)))
    // a one-character goal is compared with every character of the code
    ensures |goal| == 1 ==> r == Success(Square(OrdSum(code) - |code| * Ord(goal[0])))
    // a one-character code is compared with every character of the goal
    ensures |code| == 1 ==> r == Success(Square(|goal| * Ord(code[0]) - OrdSum(goal)))
  {
    DiffSumIsDifferenceOfTotals(code, goal);
    match DiffSum(code, goal)
    case Success(d) => Success(Square(d))
    case Failure(e) => Failure(e)
  }

  lemma {:induction false} OrdSumAppend(a: string, b: string)
    ensures OrdSum(a + b) == OrdSum(a) + OrdSum(b)
    decreases |a|
  {
    if |a| > 0 {
      assert (a + b)[1..] == a[1..] + b;
      OrdSumAppend(a[1..], b);
    } else {
      assert a + b == b;
    }
  }

  lemma {:induction false} OrdSumRepeat(c: char, k: nat)
    ensures OrdSum(Repeat(c, k)) == k * Ord(c)
    decreases k
  {
    if k > 0 {
      assert Repeat(c, k)[1..] == Repeat(c, k - 1);
      OrdSumRepeat(c, k - 1);
    }
  }

  /** The pairwise difference sum is the difference of the totals. */
  lemma {:induction false} ElementwiseIsDifferenceOfTotals(a: string, b: string)
    requires |a| == |b|
    ensures ElementwiseDiffSum(a, b) == OrdSum(a) - OrdSum(b)
    decreases |a|
  {
    if |a| > 0 {
      ElementwiseIsDifferenceOfTotals(a[1..], b[1..]);
    }
  }

  lemma DiffSumIsDifferenceOfTotals(code: string, goal: string)
    ensures |code| == |goal| ==> DiffSum(code, goal) == Success(OrdSum(code) - OrdSum(goal))
    ensures |code| != |goal| && |goal| == 1 ==>
      DiffSum(code, goal) == Success(OrdSum(code) - |code| * Ord(goal[0]))
    ensures |code| != |goal| && |code| == 1 ==>
      DiffSum(code, goal) == Success(|goal| * Ord(code[0]) - OrdSum(goal))
  {
    if |code| == |goal| {
      ElementwiseIsDifferenceOfTotals(code, goal);
    } else if |goal| == 1 {
      ElementwiseIsDifferenceOfTotals(code, Repeat(goal[0], |code|));
      OrdSumRepeat(goal[0], |code|);
    } else if |code| == 1 {
      ElementwiseIsDifferenceOfTotals(Repeat(code[0], |goal|), goal);
      OrdSumRepeat(code[0], |goal|);
    }
  }

  /** Taking one character out of a string takes its code point off the total. */
  lemma OrdSumRemove(b: string, k: nat)
    requires k < |b|
    ensures OrdSum(b) == Ord(b[k]) + OrdSum(b[..k] + b[k + 1..])
  {
    assert b == b[..k] + [b[k]] + b[k + 1..];
    OrdSumAppend(b[..k] + [b[k]], b[k + 1..]);
    OrdSumAppend(b[..k], [b[k]]);
    OrdSumAppend(b[..k], b[k + 1..]);
  }

  /** Reordering the characters of a string does not change its total. */
  lemma {:induction false} OrdSumRespectsPermutation(a: string, b: string)
    requires multiset(a) == multiset(b)
    ensures OrdSum(a) == OrdSum(b)
    decreases |a|
  {
    if |a| == 0 {
      assert |b| == |multiset(b)| == 0;
    } else {
      var c := a[0];
      assert c in multiset(b);
      var k :| 0 <= k < |b| && b[k] == c;
      var rest := b[..k] + b[k + 1..];
      OrdSumRemove(b, k);
      RemoveFromMultiset(a, b, k);
      OrdSumRespectsPermutation(a[1..], rest);
    }
  }

  lemma RemoveFromMultiset(a: string, b: string, k: nat)
    requires |a| > 0 && k < |b| && b[k] == a[0] && multiset(a) == multiset(b)
    ensures multiset(a[1..]) == multiset(b[..k] + b[k + 1..])
  {
    assert b == b[..k] + [b[k]] + b[k + 1..];
    assert a == [a[0]] + a[1..];
    assert multiset(b) == multiset(b[..k]) + multiset{b[k]} + multiset(b[k + 1..]);
    assert multiset(a[1..]) == multiset(a) - multiset{a[0]};
  }

  /** The cost is symmetric in code and goal, for every pair of strings. */
  lemma CalcCostSymmetric(code: string, goal: string)
    ensures CalcCost(code, goal) == CalcCost(goal, code)
  {
  }

  /** The cost ignores the order of the code's characters, whatever the
      lengths: a reordering is as long as the code, so it broadcasts (or
      fails to) exactly as the code does. */
  lemma CalcCostIgnoresOrder(code: string, shuffled: string, goal: string)
    requires multiset(shuffled) == multiset(code)
    ensures CalcCost(shuffled, goal) == CalcCost(code, goal)
  {
    OrdSumRespectsPermutation(shuffled, code);
    assert |shuffled| == |multiset(shuffled)| == |code|;
    if |code| == 1 {
      assert shuffled[0] in multiset(code);
    }
  }

  /** A code equal to the goal costs 0. */
  lemma CalcCostOfGoal(goal: string)
    ensures CalcCost(goal, goal) == Success(0)
  {
  }

  /** Cost 0 does not mean the code matches: "AC" against "BB" costs 0. */
  lemma ZeroCostWithoutMatch()
    ensures CalcCost("AC", "BB") == Success(0) && "AC" != "BB"
  {
  }
}

=== FILE: genetic.dfy ===
/** Character-level genetic operators of the GA: the code-point clamp,
    midpoint crossover and point mutation (util.py). numpy's random draws
    are explicit parameters. */
module Genetic {
  import opened Wrappers
  import opened Errors

  /** The clamp bounds used by mutation. The upper bound 127 is one more than
      the largest code `randomString` can draw (126). */
  const LowestOrd: int := 32
  const HighestOrd: int := 127

  function Dist(a: int, b: int): nat
  {
    if a <= b then b - a else a - b
  }

  /** `preventOverflow`: the code point of [32, 127] closest to `charOrd`. */
  function PreventOverflow(charOrd: int): (r: int)
    ensures LowestOrd <= r <= HighestOrd
    ensures LowestOrd <= charOrd <= HighestOrd ==> r == charOrd
    ensures forall y | LowestOrd <= y <= HighestOrd :: Dist(r, charOrd) <= Dist(y, charOrd)
  {
    if charOrd > HighestOrd then HighestOrd
    else if charOrd < LowestOrd then LowestOrd
    else charOrd
  }

  /** Clamping an already clamped code point changes nothing. */
  lemma PreventOverflowIdempotent(charOrd: int)
    ensures PreventOverflow(PreventOverflow(charOrd)) == PreventOverflow(charOrd)
  {
  }

  function Min(a: int, b: int): int
  {
    if a <= b then a else b
  }

  /** Python's `s[:k]` for k >= 0: slicing past the end stops at the end. */
  function Head(s: string, k: nat): string
  {
    s[..Min(k, |s|)]
  }

  /** Python's `s[k:]` for k >= 0. */
  function Tail(s: string, k: nat): string
  {
    s[Min(k, |s|)..]
  }

  /** `_mate`: both parents are cut at half the length of `codeA`; each child
      takes the head of one parent and the tail of the other. */
  function Mate(codeA: string, codeB: string): (children: (string, string))
    // the two children together hold exactly the parents' characters, whatever the lengths
    ensures multiset(children.0) + multiset(children.1) == multiset(codeA) + multiset(codeB)
    // equal-length parents give children of that same length
    ensures |codeA| == |codeB| ==> |children.0| == |codeA| && |children.1| == |codeA|
    // at every position the two children hold the two parents' characters
    ensures |codeA| == |codeB| ==>
      forall i | 0 <= i < |codeA| :: multiset{children.0[i], children.1[i]} == multiset{codeA[i], codeB[i]}
    // the first child agrees with codeA before the midpoint and with codeB from it on
    ensures |codeA| == |codeB| ==>
      forall i | 0 <= i < |codeA| :: children.0[i] == (if i < |codeA| / 2 then codeA[i] else codeB[i])
  {
    var half := |codeA| / 2;
    var childA := Head(codeA, half) + Tail(codeB, half);
    var childB := Head(codeB, half) + Tail(codeA, half);
    assert codeA == Head(codeA, half) + Tail(codeA, half);
    assert codeB == Head(codeB, half) + Tail(codeB, half);
    assert multiset(childA) == multiset(Head(codeA, half)) + multiset(Tail(codeB, half));
    assert multiset(childB) == multiset(Head(codeB, half)) + multiset(Tail(codeA, half));
    MatePositions(codeA, codeB, half);
    (childA, childB)
  }

  /** Position by position, a crossover at `half` takes the head of one
      equal-length parent and the tail of the other. */
  lemma MatePositions(codeA: string, codeB: string, half: nat)
    ensures |codeA| == |codeB| ==>
      && |Head(codeA, half) + Tail(codeB, half)| == |codeA|
      && |Head(codeB, half) + Tail(codeA, half)| == |codeA|
      && forall i | 0 <= i < |codeA| ::
        && (Head(codeA, half) + Tail(codeB, half))[i] == (if i < half then codeA[i] else codeB[i])
        && (Head(codeB, half) + Tail(codeA, half))[i] == (if i < half then codeB[i] else codeA[i])
  {
  }

  /** Mating a code with itself reproduces it twice. */
  lemma MateSelf(code: string)
    ensures Mate(code, code) == (code, code)
  {
    var half := |code| / 2;
    assert Head(code, half) + Tail(code, half) == code;
  }

  /** For equal-length parents, swapping the parents swaps the children. */
  lemma MateSwap(codeA: string, codeB: string)
    requires |codeA| == |codeB|
    ensures Mate(codeB, codeA) == (Mate(codeA, codeB).1, Mate(codeA, codeB).0)
  {
  }

  /** The three numpy draws one `_mutate` call consumes, each from
      `np.random.rand()` / `np.random.random()`. */
  datatype Draw = Draw(coin: real, pos: real, dir: real)

  predicate ValidDraw(d: Draw)
  {
    0.0 <= d.coin < 1.0 && 0.0 <= d.pos < 1.0 && 0.0 <= d.dir < 1.0
  }

  predicate ValidDraws(ds: seq<Draw>)
  {
    forall i | 0 <= i < |ds| :: ValidDraw(ds[i])
  }

  /** `int(r * len(code))` for a draw r in [0, 1). */
  function MutationIndex(pos: real, length: nat): (i: int)
    requires 0.0 <= pos < 1.0
    ensures 0 <= i
    ensures length > 0 ==> i < length
    ensures length == 0 ==> i == 0
  {
    var x := pos * (length as real);
    assert 0.0 <= x;
    assert length > 0 ==> x < length as real;
    x.Floor
  }

  /** The direction of a mutation: one code point down when the draw exceeds
      one half, one code point up otherwise. */
  function Direction(dir: real): (r: int)
    ensures r == -1 || r == 1
  {
    if dir > 0.5 then -1 else 1
  }

  /** `m` is `code` with only position `i` changed, to the clamped neighbour
      of the old code point in direction `direction`. */
  predicate MutatedAt(code: string, m: string, i: int, direction: int)
  {
    && |m| == |code|
    && 0 <= i < |code|
    && (forall j | 0 <= j < |code| && j != i :: m[j] == code[j])
    && m[i] as int == PreventOverflow(code[i] as int + direction)
  }

  /** `_mutate`: with the coin above `probability` nothing is mutated and the
      result is `None`; otherwise one character moves by one code point,
      clamped; an empty code raises IndexError. */
  function Mutate(code: string, probability: real, d: Draw): (r: Result<Option<string>, PyError>)
    requires ValidDraw(d)
    ensures (r.Success? && r.value.None?) <==> d.coin > probability
    ensures r.Failure? <==> d.coin <= probability && |code| == 0
    ensures r.Failure? ==> r.error == IndexError
    ensures r.Success? && r.value.Some? ==>
      MutatedAt(code, r.value.value, MutationIndex(d.pos, |code|), Direction(d.dir))
  {
    if d.coin > probability then Success(None)
    else
      var index := MutationIndex(d.pos, |code|);
      if index >= |code| then Failure(IndexError)
      else
        var charOrd := PreventOverflow(code[index] as int + Direction(d.dir));
        Success(Some(code[index := charOrd as char]))
  }

  /** Every code point of `s` lies in the clamp range. */
  predicate InClampRange(s: string)
  {
    forall i | 0 <= i < |s| :: LowestOrd <= s[i] as int <= HighestOrd
  }

  /** A mutated code whose characters were in [32, 127] stays there, and the
      one changed character moves by at most one code point. */
  lemma MutationStaysInRange(code: string, probability: real, d: Draw)
    requires ValidDraw(d) && d.coin <= probability && |code| > 0
    requires InClampRange(code)
    ensures Mutate(code, probability, d).Success? && Mutate(code, probability, d).value.Some?
    ensures var m := Mutate(code, probability, d).value.value;
      var i := MutationIndex(d.pos, |code|);
      InClampRange(m) && Dist(m[i] as int, code[i] as int) <= 1
  {
  }
}

=== FILE: ranking.dfy ===
/** Ranking a generation: numpy's `sortList.sort(order='cost')` on a structured
    array of `(id, cost)` records. Fields not named in `order` still break
    ties in dtype order, so the effective key is `(cost, id)`, with ids
    compared as byte strings. */
module Ranking {
  import opened Store
  import opened Seqs

  /** signac's job id: the md5 hex digest of the state point. */
  type JobId = string

  /** One record of the array being sorted; `job` is the job the id opens. */
  datatype Entry = Entry(job: StatePoint, id: JobId, cost: int)

  /** Strict lexicographic order on ids. */
  predicate IdBelow(a: JobId, b: JobId)
    decreases |a|
  {
    if |b| == 0 then false
    else if |a| == 0 then true
    else if a[0] != b[0] then a[0] < b[0]
    else IdBelow(a[1..], b[1..])
  }

  lemma {:induction false} IdBelowIrreflexive(a: JobId)
    ensures !IdBelow(a, a)
    decreases |a|
  {
    if |a| > 0 {
      IdBelowIrreflexive(a[1..]);
    }
  }

  lemma {:induction false} IdBelowTransitive(a: JobId, b: JobId, c: JobId)
    requires IdBelow(a, b) && IdBelow(b, c)
    ensures IdBelow(a, c)
    decreases |a|
  {
    if |a| > 0 && a[0] == b[0] && b[0] == c[0] {
      IdBelowTransitive(a[1..], b[1..], c[1..]);
    }
  }

  lemma {:induction false} IdBelowConnected(a: JobId, b: JobId)
    requires a != b
    ensures IdBelow(a, b) || IdBelow(b, a)
    decreases |a|
  {
    if |a| > 0 && |b| > 0 && a[0] == b[0] {
      assert a == [a[0]] + a[1..] && b == [b[0]] + b[1..];
      IdBelowConnected(a[1..], b[1..]);
    }
  }

  /** `x` may come before `y`: smaller cost, or equal cost and id not above. */
  predicate Precedes(x: Entry, y: Entry)
  {
    x.cost < y.cost || (x.cost == y.cost && (x.id == y.id || IdBelow(x.id, y.id)))
  }

  lemma PrecedesTotal(x: Entry, y: Entry)
    ensures Precedes(x, y) || Precedes(y, x)
  {
    if x.id != y.id {
      IdBelowConnected(x.id, y.id);
    }
  }

  lemma PrecedesTransitive(x: Entry, y: Entry, z: Entry)
    requires Precedes(x, y) && Precedes(y, z)
    ensures Precedes(x, z)
  {
    if x.cost == y.cost == z.cost && x.id != y.id && y.id != z.id {
      IdBelowTransitive(x.id, y.id, z.id);
    }
  }

  lemma PrecedesAntisymmetric(x: Entry, y: Entry)
    requires Precedes(x, y) && Precedes(y, x)
    ensures x.cost == y.cost && x.id == y.id
  {
    if x.id != y.id {
      IdBelowTransitive(x.id, y.id, x.id);
      IdBelowIrreflexive(x.id);
    }
  }

  /** Ascending by `(cost, id)`. */
  predicate Sorted(s: seq<Entry>)
  {
    forall i, j | 0 <= i < j < |s| :: Precedes(s[i], s[j])
  }

  /** Insert `e` into a sorted sequence, before the first entry it precedes. */
  function Insert(e: Entry, s: seq<Entry>): (r: seq<Entry>)
    requires Sorted(s)
    ensures Sorted(r)
    ensures multiset(r) == multiset(s) + multiset{e}
    ensures |r| == |s| + 1
    decreases |s|
  {
    if |s| == 0 then [e]
    else if Precedes(e, s[0]) then
      InsertAtFront(e, s);
      [e] + s
    else
      var rest := Insert(e, s[1..]);
      PrecedesTotal(e, s[0]);
      InsertBehind(e, s, rest);
      assert s == [s[0]] + s[1..];
      [s[0]] + rest
  }

  lemma InsertAtFront(e: Entry, s: seq<Entry>)
    requires Sorted(s) && |s| > 0 && Precedes(e, s[0])
    ensures Sorted([e] + s)
  {
    forall j | 0 < j < |s| ensures Precedes(e, s[j]) {
      PrecedesTransitive(e, s[0], s[j]);
    }
  }

  lemma InsertBehind(e: Entry, s: seq<Entry>, rest: seq<Entry>)
    requires Sorted(s) && |s| > 0 && Precedes(s[0], e)
    requires Sorted(rest) && multiset(rest) == multiset(s[1..]) + multiset{e}
    ensures Sorted([s[0]] + rest)
  {
    forall j | 0 <= j < |rest| ensures Precedes(s[0], rest[j]) {
      assert rest[j] in multiset(rest);
      if rest[j] != e {
        assert rest[j] in multiset(s[1..]);
        var k :| 0 <= k < |s[1..]| && s[1..][k] == rest[j];
        assert s[k + 1] == rest[j];
      }
    }
  }

  /** Insertion sort by `(cost, id)`. */
  function Sort(s: seq<Entry>): (r: seq<Entry>)
    ensures Sorted(r)
    ensures multiset(r) == multiset(s)
    ensures |r| == |s|
    decreases |s|
  {
    if |s| == 0 then []
    else
      assert s == [s[0]] + s[1..];
      Insert(s[0], Sort(s[1..]))
  }

  /** Sorting keeps exactly the entries it was given, each as often. */
  lemma SortKeepsElements(s: seq<Entry>)
    ensures Elems(Sort(s)) == Elems(s)
    ensures NoDup(s) ==> NoDup(Sort(s))
  {
    var r := Sort(s);
    forall x ensures x in r <==> x in s {
      assert x in r <==> x in multiset(r);
      assert x in s <==> x in multiset(s);
    }
    ElemsCardinality(s);
    ElemsCardinality(r);
  }

  /** Within `s`, an id determines its entry. */
  predicate IdsIdentifyEntries(s: seq<Entry>)
  {
    forall x, y | x in s && y in s && x.id == y.id :: x == y
  }

  /** Dropping the first entry of a duplicate-free sorted sequence. */
  lemma DropFirst(a: seq<Entry>)
    requires Sorted(a) && NoDup(a) && |a| > 0
    ensures Sorted(a[1..]) && NoDup(a[1..])
    ensures a[0] !in a[1..]
    ensures Elems(a) == {a[0]} + Elems(a[1..])
  {
  }

  /** The first entry of a sorted sequence precedes every entry of it. */
  lemma FirstPrecedes(a: seq<Entry>, x: Entry)
    requires Sorted(a) && x in a
    ensures Precedes(a[0], x)
  {
  }

  /** Two duplicate-free sorted sequences of the same entries are equal when
      ids identify entries: the order by `(cost, id)` leaves no ties. */
  lemma {:induction false} SortedUnique(a: seq<Entry>, b: seq<Entry>)
    requires Sorted(a) && Sorted(b) && NoDup(a) && NoDup(b)
    requires Elems(a) == Elems(b)
    requires IdsIdentifyEntries(a)
    ensures a == b
    decreases |a|
  {
    if |a| == 0 {
      ElemsCardinality(a);
      ElemsCardinality(b);
    } else {
      assert a[0] in Elems(b);
      assert b[0] in Elems(a);
      FirstPrecedes(b, a[0]);
      FirstPrecedes(a, b[0]);
      PrecedesAntisymmetric(a[0], b[0]);
      assert a[0] == b[0];
      DropFirst(a);
      DropFirst(b);
      assert Elems(a[1..]) == Elems(b[1..]);
      assert IdsIdentifyEntries(a[1..]) by {
        forall x, y | x in a[1..] && y in a[1..] && x.id == y.id ensures x == y {
          assert x in a && y in a;
        }
      }
      SortedUnique(a[1..], b[1..]);
      assert a == [a[0]] + a[1..] && b == [b[0]] + b[1..];
    }
  }

  /** The `sortDict` of nextGeneration: each ranked job's cost and its
      position in the ranking. */
  function RankTable(ranked: seq<Entry>): (table: map<StatePoint, (int, nat)>)
    requires NoDup(ranked)
    requires forall i, j | 0 <= i < j < |ranked| :: ranked[i].job != ranked[j].job
    // every ranked job has an entry, and nothing else does
    ensures table.Keys == set e | e in ranked :: e.job
    // the rank of a job is its position, and the cost is the one it was ranked by
    ensures forall i | 0 <= i < |ranked| :: table[ranked[i].job] == (ranked[i].cost, i)
    // so the ranks are exactly 0 .. k-1
    ensures forall j | j in table :: table[j].1 < |ranked|
  {
    map i | 0 <= i < |ranked| :: ranked[i].job := (ranked[i].cost, i)
  }
}

=== FILE: scheduler.dfy ===
/** The flow scheduler that drives project.py: `python project.py run` picks
    (job, operation) pairs whose pre-conditions hold and runs them one at a
    time. A run is a sequence of requested operations; each one runs only if
    flow would consider it eligible, and the first exception ends the run.

    A `nextGeneration` request carries the environment's choices for that
    call: the order `find_jobs` lists the generation in, and the random draws
    of each `_mutate` call. A request whose choices do not fit the store
    describes no possible execution and is ignored like an ineligible one. */
module Scheduler {
  import opened Wrappers
  import opened Errors
  import opened Seqs
  import opened Store
  import opened Ranking
  import opened Workflow
  import Genetic
  import Fitness

  datatype Op =
    | CalcCostOp(job: StatePoint)
    | NextGenerationOp(master: StatePoint, listing: seq<StatePoint>, draws: seq<Genetic.Draw>)

  /** The operation's pre-conditions hold (and, for nextGeneration, its
      listing enumerates the generation and there is one draw per parent). */
  predicate Eligible(s: State, op: Op)
  {
    match op
    case CalcCostOp(sp) => CalcCostEligible(s, sp)
    case NextGenerationOp(m, listing, draws) =>
      && NextGenerationEligible(s, m)
      && IsListing(listing, GenerationMembers(s))
      && |draws| == |listing|
      && Genetic.ValidDraws(draws)
  }

  function Max(a: int, b: int): int
  {
    if a <= b then b else a
  }

  /** What a run never takes back: jobs, costs, the `optimized` flag, and
      generations already reached. */
  predicate Extends(s: State, t: State)
  {
    && s.jobs.Keys <= t.jobs.Keys
    && (forall sp | sp in s.jobs && s.jobs[sp].cost.Some? :: t.jobs[sp].cost == s.jobs[sp].cost)
    && (s.project.optimized ==> t.project.optimized)
    && s.project.n <= t.project.n
  }

  lemma ExtendsTransitive(r: State, s: State, t: State)
    requires Extends(r, s) && Extends(s, t)
    ensures Extends(r, t)
  {
  }

  /** Every stored cost belongs to a member and is the cost of its code. */
  predicate CostsConsistent(s: State)
  {
    forall sp | sp in s.jobs && s.jobs[sp].cost.Some? ::
      sp.Member? && sp.code.Some? && Fitness.CalcCost(sp.code.value, sp.goal) == Success(s.jobs[sp].cost.value)
  }

  /** A member whose code can be costed and mutated: present, as long as the
      goal, and the goal not empty. */
  predicate WellFormed(sp: StatePoint)
    requires sp.Member?
  {
    sp.code.Some? && |sp.code.value| == |sp.goal| && |sp.goal| > 0
  }

  /** The invariant a healthy project keeps. */
  predicate Valid(s: State)
  {
    && CostsConsistent(s)
    && (forall sp | sp in s.jobs && sp.Member? :: WellFormed(sp))
  }

  /** One scheduling step: flow skips an ineligible operation. */
  function Step(s: State, idOf: StatePoint -> JobId, op: Op, policy: SkipPolicy): (o: Outcome)
    ensures !Eligible(s, op) ==> o == Finished(s)
    ensures Extends(s, o.state)
    ensures o.Raised? ==> o.state.project == s.project
    // no operation creates a master job
    ensures forall sp | sp in o.state.jobs && IsMaster(sp) :: sp in s.jobs
    // only a completed nextGeneration advances the generation, by exactly one
    ensures o.state.project.n ==
      (if op.NextGenerationOp? && Eligible(s, op) && o.Finished? then s.project.n + 1 else s.project.n)
    // nextGeneration never runs past the ceiling, so n stops at MaxNumGenerations + 1
    ensures o.state.project.n <= Max(s.project.n, MaxNumGenerations + 1)
    ensures CostsConsistent(s) ==> CostsConsistent(o.state)
  {
    if !Eligible(s, op) then Finished(s)
    else
      match op
      case CalcCostOp(sp) => CalcCost(s, sp)
      case NextGenerationOp(m, listing, draws) => NextGeneration(s, idOf, m, listing, draws, policy)
  }

  /** The number of nextGeneration requests among `ops`. */
  function GenerationRequests(ops: seq<Op>): nat
  {
    if |ops| == 0 then 0
    else (if ops[0].NextGenerationOp? then 1 else 0) + GenerationRequests(ops[1..])
  }

  /** `project.py run` over a sequence of requests, stopping at the first
      exception. */
  function Run(s: State, idOf: StatePoint -> JobId, ops: seq<Op>, policy: SkipPolicy): (o: Outcome)
    ensures Extends(s, o.state)
    // once optimized, nothing is eligible: the project is finished
    ensures Optimized(s) ==> o == Finished(s)
    // each generation step needs a nextGeneration request: calcCost alone never moves `n`
    ensures o.state.project.n <= s.project.n + GenerationRequests(ops)
    ensures o.state.project.n <= Max(s.project.n, MaxNumGenerations + 1)
    ensures CostsConsistent(s) ==> CostsConsistent(o.state)
    decreases |ops|
  {
    if |ops| == 0 then Finished(s)
    else
      match Step(s, idOf, ops[0], policy)
      case Raised(e, t) => Raised(e, t)
      case Finished(t) =>
        var o := Run(t, idOf, ops[1..], policy);
        ExtendsTransitive(s, t, o.state);
        o
  }

  /** Running two request sequences back to back. */
  lemma {:induction false} RunAppend(s: State, idOf: StatePoint -> JobId, a: seq<Op>, b: seq<Op>, policy: SkipPolicy)
    requires Run(s, idOf, a, policy).Finished?
    ensures Run(s, idOf, a + b, policy) == Run(Run(s, idOf, a, policy).state, idOf, b, policy)
    decreases |a|
  {
    if |a| == 0 {
      assert a + b == b;
    } else {
      AppendTail(a, b);
      var t := Step(s, idOf, a[0], policy);
      RunUnfold(s, idOf, a, policy);
      RunUnfold(s, idOf, a + b, policy);
      RunAppend(t.state, idOf, a[1..], b, policy);
    }
  }

  /** A run whose first step finishes continues from that step's state. */
  lemma RunUnfold(s: State, idOf: StatePoint -> JobId, ops: seq<Op>, policy: SkipPolicy)
    requires |ops| > 0
    ensures Run(s, idOf, ops, policy) ==
      match Step(s, idOf, ops[0], policy)
      case Raised(e, t) => Raised(e, t)
      case Finished(t) => Run(t, idOf, ops[1..], policy)
  {
  }

  /** A run of calcCost requests only never changes the generation. */
  lemma CostingKeepsGeneration(s: State, idOf: StatePoint -> JobId, ops: seq<Op>, policy: SkipPolicy)
    requires forall i | 0 <= i < |ops| :: ops[i].CalcCostOp?
    ensures Run(s, idOf, ops, policy).state.project.n == s.project.n
  {
    NoGenerationRequests(ops);
  }

  lemma {:induction false} NoGenerationRequests(ops: seq<Op>)
    requires forall i | 0 <= i < |ops| :: ops[i].CalcCostOp?
    ensures GenerationRequests(ops) == 0
    decreases |ops|
  {
    if |ops| > 0 {
      assert forall i | 0 <= i < |ops[1..]| :: ops[1..][i] == ops[i + 1];
      NoGenerationRequests(ops[1..]);
    }
  }

  /** `optimized` finishes the project: no operation is eligible any more,
      and the label stays true. */
  lemma OptimizedIsFinal(s: State, idOf: StatePoint -> JobId, op: Op, policy: SkipPolicy)
    requires Optimized(s)
    ensures !Eligible(s, op)
    ensures Optimized(Step(s, idOf, op, policy).state)
  {
  }

  /** `m` is the project's one master job. */
  predicate SoleMaster(s: State, m: StatePoint)
  {
    m in s.jobs && IsMaster(m) && forall sp | sp in s.jobs && IsMaster(sp) :: sp == m
  }

  /** A project with a single master keeps exactly that master over any run:
      jobs are never removed, and every job an operation creates is a member. */
  lemma {:induction false} RunKeepsSoleMaster(s: State, idOf: StatePoint -> JobId, ops: seq<Op>,
                                              policy: SkipPolicy, m: StatePoint)
    requires SoleMaster(s, m)
    ensures SoleMaster(Run(s, idOf, ops, policy).state, m)
    decreases |ops|
  {
    if |ops| > 0 {
      var o := Step(s, idOf, ops[0], policy);
      RunUnfold(s, idOf, ops, policy);
      if o.Finished? {
        RunKeepsSoleMaster(o.state, idOf, ops[1..], policy, m);
      }
    }
  }

  // ------------------------------------------------ the run as written stalls

  /** While some member has no cost, the master is not `simulated`, so
      nextGeneration cannot run. */
  lemma NoGenerationWhileUncosted(s: State, c: StatePoint)
    requires c in s.jobs && c.Member? && s.jobs[c].cost.None?
    ensures forall m :: !NextGenerationEligible(s, m)
  {
    forall m ensures !NextGenerationEligible(s, m) {
      if m in s.jobs && IsMaster(m) {
        assert !AllMembersCosted(s);
      }
    }
  }

  /** A member with code `None` can never be costed (calcCost raises on it),
      so the generation counter never moves again, whatever runs. */
  lemma {:induction false} CodelessMemberBlocksProgress(s: State, idOf: StatePoint -> JobId, ops: seq<Op>,
                                                        policy: SkipPolicy, c: StatePoint)
    requires c in s.jobs && c.Member? && c.code.None? && s.jobs[c].cost.None?
    ensures Run(s, idOf, ops, policy).state.project.n == s.project.n
    decreases |ops|
  {
    if |ops| > 0 {
      NoGenerationWhileUncosted(s, c);
      var o := Step(s, idOf, ops[0], policy);
      if o.Finished? {
        assert o.state.jobs[c].cost.None? by {
          match ops[0]
          case CalcCostOp(sp) =>
            if sp != c && Eligible(s, ops[0]) {
              assert o.state.jobs[c] == s.jobs[c];
            }
          case NextGenerationOp(_, _, _) =>
        }
        CodelessMemberBlocksProgress(o.state, idOf, ops[1..], policy, c);
      }
    }
  }

  /** Every parent of a valid store breeds a child, whatever the draws; under
      the corrected policy the child is well formed too. */
  lemma ValidParentsBreed(s: State, ranked: seq<Entry>, draws: seq<Genetic.Draw>, policy: SkipPolicy)
    requires Valid(s)
    requires forall e | e in ranked :: e.job in s.jobs && e.job.Member?
    requires |draws| == |ranked| && Genetic.ValidDraws(draws)
    ensures forall i | 0 <= i < |ranked| :: ChildOf(ranked[i].job, draws[i], policy).Success?
    ensures policy == ChildKeepsParentCode ==>
      forall i | 0 <= i < |ranked| :: WellFormed(ChildOf(ranked[i].job, draws[i], policy).value)
  {
  }

  /** As written: one parent whose mutation coin fails leaves a child with
      code `None` in the new generation, and from then on no sequence of
      operations advances the generation again. */
  lemma SkippedMutationStallsRun(s: State, idOf: StatePoint -> JobId, master: StatePoint,
                                 listing: seq<StatePoint>, draws: seq<Genetic.Draw>, ops: seq<Op>)
    requires Valid(s)
    requires NextGenerationEligible(s, master) && IsListing(listing, GenerationMembers(s))
    requires |draws| == |listing| && Genetic.ValidDraws(draws)
    requires |listing| > 0 && draws[0].coin > MutationProbability
    ensures NextGeneration(s, idOf, master, listing, draws, ChildCodeNone).Finished?
    ensures var t := NextGeneration(s, idOf, master, listing, draws, ChildCodeNone).state;
      t.project.n == s.project.n + 1 &&
      Run(t, idOf, ops, ChildCodeNone).state.project.n == s.project.n + 1
  {
    GenerationIsCosted(s, master, listing);
    var ranked := Ranked(s, idOf, listing);
    ValidParentsBreed(s, ranked, draws, ChildCodeNone);
    var o := NextGeneration(s, idOf, master, listing, draws, ChildCodeNone);
    var c := ChildOf(ranked[0].job, draws[0], ChildCodeNone).value;
    assert c.code.None?;
    assert c in o.state.jobs;
    assert c in s.jobs ==> WellFormed(c);
    CodelessMemberBlocksProgress(o.state, idOf, ops, ChildCodeNone, c);
  }

  // ------------------------------------------- the corrected run stays healthy

  /** With the skipped child keeping its parent's code, every step of a valid
      project completes and keeps it valid. */
  lemma CorrectedStepPreservesValid(s: State, idOf: StatePoint -> JobId, op: Op)
    requires Valid(s)
    ensures Step(s, idOf, op, ChildKeepsParentCode).Finished?
    ensures Valid(Step(s, idOf, op, ChildKeepsParentCode).state)
  {
    var o := Step(s, idOf, op, ChildKeepsParentCode);
    if Eligible(s, op) {
      match op
      case CalcCostOp(sp) =>
        assert WellFormed(sp);
      case NextGenerationOp(m, listing, draws) =>
        GenerationIsCosted(s, m, listing);
        var ranked := Ranked(s, idOf, listing);
        ValidParentsBreed(s, ranked, draws, ChildKeepsParentCode);
        forall sp | sp in o.state.jobs && sp.Member? ensures WellFormed(sp) {
          if sp !in s.jobs {
            var i :| 0 <= i < |ranked| && ChildOf(ranked[i].job, draws[i], ChildKeepsParentCode) == Success(sp);
          }
        }
    }
  }

  /** A whole corrected run completes and keeps the project valid. */
  lemma {:induction false} CorrectedRunStaysValid(s: State, idOf: StatePoint -> JobId, ops: seq<Op>)
    requires Valid(s)
    ensures Run(s, idOf, ops, ChildKeepsParentCode).Finished?
    ensures Valid(Run(s, idOf, ops, ChildKeepsParentCode).state)
    decreases |ops|
  {
    if |ops| > 0 {
      CorrectedStepPreservesValid(s, idOf, ops[0]);
      CorrectedRunStaysValid(Step(s, idOf, ops[0], ChildKeepsParentCode).state, idOf, ops[1..]);
    }
  }

  /** One calcCost request per job of `us`. */
  function CostOps(us: seq<StatePoint>): (ops: seq<Op>)
    ensures |ops| == |us|
    ensures forall i | 0 <= i < |us| :: ops[i] == CalcCostOp(us[i])
  {
    seq(|us|, i requires 0 <= i < |us| => CalcCostOp(us[i]))
  }

  /** Costing every uncosted member of a valid project, one by one, leaves
      all members costed unless a zero cost finished the project first. */
  lemma {:induction false} CostingAll(s: State, idOf: StatePoint -> JobId, us: seq<StatePoint>)
    requires Valid(s) && NoDup(us)
    requires forall u | u in us :: u in s.jobs && u.Member? && s.jobs[u].cost.None?
    ensures var o := Run(s, idOf, CostOps(us), ChildKeepsParentCode);
      && o.Finished?
      && o.state.jobs.Keys == s.jobs.Keys
      && o.state.project.n == s.project.n
      && (Optimized(o.state) || forall u | u in us :: o.state.jobs[u].cost.Some?)
    decreases |us|
  {
    var ops := CostOps(us);
    CorrectedRunStaysValid(s, idOf, ops);
    if |us| > 0 && !Optimized(s) {
      var u := us[0];
      var t := Step(s, idOf, ops[0], ChildKeepsParentCode);
      CorrectedStepPreservesValid(s, idOf, ops[0]);
      assert t == CalcCost(s, u);
      assert ops[1..] == CostOps(us[1..]);
      forall v | v in us[1..] ensures v in t.state.jobs && v.Member? && t.state.jobs[v].cost.None? {
        var j :| 0 <= j < |us[1..]| && us[1..][j] == v;
        assert us[j + 1] != us[0];
      }
      assert NoDup(us[1..]) by {
        forall p, q | 0 <= p < q < |us[1..]| ensures us[1..][p] != us[1..][q] {
          assert us[p + 1] != us[q + 1];
        }
      }
      CostingAll(t.state, idOf, us[1..]);
      var o := Run(t.state, idOf, ops[1..], ChildKeepsParentCode);
      assert Extends(t.state, o.state);
    }
  }

  /** With the corrected policy, a valid project that is not finished can
      always complete its generation: cost every uncosted member, then breed.
      Either a zero cost finishes the project on the way, or the generation
      counter advances by one. */
  lemma CorrectedGenerationCanComplete(s: State, idOf: StatePoint -> JobId, master: StatePoint)
    returns (ops: seq<Op>)
    requires Valid(s) && master in s.jobs && IsMaster(master) && !Optimized(s)
    ensures var o := Run(s, idOf, ops, ChildKeepsParentCode);
      o.Finished? && (Optimized(o.state) || o.state.project.n == s.project.n + 1)
  {
    var costing := CostEveryMember(s, idOf);
    var t := Run(s, idOf, costing, ChildKeepsParentCode).state;
    var listing := ListingOf(GenerationMembers(t));
    var op := NextGenerationOp(master, listing, seq(|listing|, _ => Genetic.Draw(0.0, 0.0, 0.0)));
    ops := costing + [op];
    RunAppend(s, idOf, costing, [op], ChildKeepsParentCode);
    RunUnfold(t, idOf, [op], ChildKeepsParentCode);
    CorrectedStepPreservesValid(t, idOf, op);
    if !Optimized(t) {
      BreedingAdvances(t, idOf, op);
    }
  }

  /** The calcCost requests for every uncosted member of a valid project:
      they all run, keep the project valid, and leave every member costed
      unless a zero cost finished the project first. */
  lemma CostEveryMember(s: State, idOf: StatePoint -> JobId) returns (costing: seq<Op>)
    requires Valid(s)
    ensures var o := Run(s, idOf, costing, ChildKeepsParentCode);
      && o.Finished?
      && Valid(o.state)
      && o.state.jobs.Keys == s.jobs.Keys
      && o.state.project.n == s.project.n
      && (Optimized(o.state) || AllMembersCosted(o.state))
  {
    var uncosted := set sp | sp in s.jobs && sp.Member? && s.jobs[sp].cost.None?;
    var us := ListingOf(uncosted);
    costing := CostOps(us);
    forall u | u in us ensures u in s.jobs && u.Member? && s.jobs[u].cost.None? {
      assert u in Elems(us);
    }
    CostingAll(s, idOf, us);
    CorrectedRunStaysValid(s, idOf, costing);
    var t := Run(s, idOf, costing, ChildKeepsParentCode).state;
    if !Optimized(t) {
      forall sp | sp in t.jobs && !IsMaster(sp) ensures t.jobs[sp].cost.Some? {
        if s.jobs[sp].cost.None? {
          assert sp in Elems(us);
        }
      }
    }
  }

  /** Once every member is costed, the master's nextGeneration runs and
      advances the generation. */
  lemma BreedingAdvances(t: State, idOf: StatePoint -> JobId, op: Op)
    requires Valid(t) && !Optimized(t) && AllMembersCosted(t)
    requires op.NextGenerationOp? && op.master in t.jobs && IsMaster(op.master)
    requires IsListing(op.listing, GenerationMembers(t))
    requires |op.draws| == |op.listing| && Genetic.ValidDraws(op.draws)
    ensures var o := Step(t, idOf, op, ChildKeepsParentCode);
      o.Finished? && o.state.project.n == t.project.n + 1
  {
    CorrectedStepPreservesValid(t, idOf, op);
  }
}

=== FILE: seqs.dfy ===
/** Small facts about sequences used when counting jobs. */
module Seqs {

  /** The set of elements of a sequence. */
  function Elems<T>(s: seq<T>): set<T>
  {
    set x | x in s
  }

  /** No element occurs twice. */
  predicate NoDup<T(==)>(s: seq<T>)
  {
    forall i, j | 0 <= i < j < |s| :: s[i] != s[j]
  }

  /** A sequence has at most as many distinct elements as it is long,
      and exactly as many when it has no duplicates. */
  lemma {:induction false} ElemsCardinality<T>(s: seq<T>)
    ensures |Elems(s)| <= |s|
    ensures NoDup(s) <==> |Elems(s)| == |s|
    decreases |s|
  {
    if |s| > 0 {
      var tail := s[1..];
      ElemsCardinality(tail);
      assert Elems(s) == {s[0]} + Elems(tail);
      if s[0] in tail {
        assert Elems(s) == Elems(tail);
        var j :| 0 <= j < |tail| && tail[j] == s[0];
        assert s[0] == s[j + 1];
        assert !NoDup(s);
      } else {
        assert |Elems(s)| == |Elems(tail)| + 1;
        if NoDup(s) {
          assert NoDup(tail) by {
            forall i, j | 0 <= i < j < |tail| ensures tail[i] != tail[j] {
              assert s[i + 1] != s[j + 1];
            }
          }
        }
        if NoDup(tail) {
          forall i, j | 0 <= i < j < |s| ensures s[i] != s[j] {
            if i == 0 {
              assert s[j] in tail;
            } else {
              assert tail[i - 1] != tail[j - 1];
            }
          }
        }
      }
    }
  }

  /** Some duplicate-free enumeration of a finite set, as `find_jobs` returns. */
  lemma {:induction false} ListingOf<T>(xs: set<T>) returns (s: seq<T>)
    ensures NoDup(s) && Elems(s) == xs
    decreases |xs|
  {
    if xs == {} {
      s := [];
    } else {
      var x :| x in xs;
      var rest := ListingOf(xs - {x});
      s := [x] + rest;
      forall i, j | 0 <= i < j < |s| ensures s[i] != s[j] {
        if i > 0 {
          assert rest[i - 1] != rest[j - 1];
        } else {
          assert s[j] in Elems(rest);
        }
      }
      assert Elems(s) == {x} + Elems(rest);
    }
  }

  /** Splitting the head off a concatenation. */
  lemma AppendTail<T>(a: seq<T>, b: seq<T>)
    requires |a| > 0
    ensures (a + b)[0] == a[0]
    ensures (a + b)[1..] == a[1..] + b
  {
  }
}

=== FILE: store.dfy ===
/** The signac job store as the workflow sees it: immutable state points,
    one mutable document per job, and `find_jobs` queries.

    A job's identity is its state point, so the store is a map keyed by state
    point: opening an identical state point again yields the same job and
    the same document. */
module Store {
  import opened Wrappers

  /** A state point. The master job's point carries only `master`, `goal` and
      `seed`; a population member's carries `length`, `goal`, `code`, `seed`
      and `master = False`. A member's `code` may be `None`: nextGeneration
      stores whatever `_mutate` returns. */
  datatype StatePoint =
    | Master(goal: string, seed: int)
    | Member(length: int, goal: string, code: Option<string>, seed: int)

  /** The document keys the workflow writes. No live operation writes `rank`. */
  datatype Doc = Doc(generation: Option<int>, cost: Option<int>)

  const EmptyDoc: Doc := Doc(None, None)

  type Jobs = map<StatePoint, Doc>

  /** `project.open_job(sp).init()`: creates the job with an empty document
      unless it exists; an existing job and every other job are untouched. */
  function Open(jobs: Jobs, sp: StatePoint): (r: Jobs)
    ensures r.Keys == jobs.Keys + {sp}
    ensures sp !in jobs ==> r[sp] == EmptyDoc
    ensures forall k | k in jobs :: r[k] == jobs[k]
  {
    if sp in jobs then jobs else jobs[sp := EmptyDoc]
  }

  /** Opening a job twice is opening it once. */
  lemma OpenIdempotent(jobs: Jobs, sp: StatePoint)
    ensures Open(Open(jobs, sp), sp) == Open(jobs, sp)
  {
  }

  /** Open the job of `sp` and set `document.generation = g`. */
  function SetGeneration(jobs: Jobs, sp: StatePoint, g: int): (r: Jobs)
    ensures r.Keys == jobs.Keys + {sp}
    ensures r[sp].generation == Some(g)
    // the cost of a re-opened job survives; a new job has none
    ensures r[sp].cost == (if sp in jobs then jobs[sp].cost else None)
    ensures forall k | k in jobs && k != sp :: r[k] == jobs[k]
  {
    var jobs' := Open(jobs, sp);
    jobs'[sp := jobs'[sp].(generation := Some(g))]
  }

  /** One condition of a `find_jobs` document filter: `{'cost': {'$exists': b}}`,
      `{'rank': {'$exists': b}}` or `{'generation': g}`. */
  datatype DocClause =
    | CostExists(present: bool)
    | RankExists(present: bool)
    | GenerationIs(value: int)

  predicate Satisfies(doc: Doc, clause: DocClause)
  {
    match clause
    case CostExists(present) => doc.cost.Some? == present
    case RankExists(present) => !present  // documents never hold `rank`
    case GenerationIs(g) => doc.generation == Some(g)
  }

  /** `find_jobs({'master': False}, docFilter)`, with an empty filter standing
      for `doc_filter=None`. */
  function FindMembers(jobs: Jobs, docFilter: seq<DocClause>): set<StatePoint>
  {
    set sp | sp in jobs && sp.Member? && forall c | c in docFilter :: Satisfies(jobs[sp], c)
  }

  /** A one-clause filter selects the members whose document satisfies it. */
  lemma FindMembersOne(jobs: Jobs, c: DocClause)
    ensures FindMembers(jobs, [c]) == set sp | sp in jobs && sp.Member? && Satisfies(jobs[sp], c)
  {
  }

  /** A two-clause filter selects the members whose document satisfies both. */
  lemma FindMembersTwo(jobs: Jobs, c: DocClause, d: DocClause)
    ensures FindMembers(jobs, [c, d]) ==
      set sp | sp in jobs && sp.Member? && Satisfies(jobs[sp], c) && Satisfies(jobs[sp], d)
  {
  }

  /** No document holds a `rank`, so a filter asking for one finds nothing. */
  lemma NothingIsRanked(jobs: Jobs, c: DocClause)
    ensures FindMembers(jobs, [RankExists(true), c]) == {}
  {
    FindMembersTwo(jobs, RankExists(true), c);
  }
}

=== FILE: workflow.dfy ===
/** The signac-flow workflow of project.py: the project document, the label
    predicates, the two gated operations `calcCost` and `nextGeneration`, and
    the state machine they form.

    flow runs an operation on a job when all its pre-conditions hold and not
    all its post-conditions do. For both operations the post-condition is the
    negation of one of the pre-conditions (`simulated` against `'cost' not in
    document`, `optimized` against `not optimized`), so eligibility is exactly
    the conjunction of the pre-conditions. */
module Workflow {
  import opened Wrappers
  import opened Errors
  import opened Seqs
  import opened Store
  import opened Ranking
  import Genetic
  import Fitness

  /** Past this generation number every job counts as optimized. */
  const MaxNumGenerations: int := 1000

  /** The probability nextGeneration passes to `_mutate`. */
  const MutationProbability: real := 0.5

  /** The project document: `generation.n` and whether the key `optimized`
      is present. */
  datatype ProjectDoc = ProjectDoc(n: int, optimized: bool)

  datatype State = State(project: ProjectDoc, jobs: Jobs)

  /** The result of running an operation. An operation that raises keeps the
      writes it made before raising. */
  datatype Outcome =
    | Finished(state: State)
    | Raised(error: PyError, state: State)

  /** `isMaster`: the state point's `master` flag. It holds exactly for the
      master's point, which carries only the goal and the seed; every other
      job is a population member. */
  predicate IsMaster(sp: StatePoint)
  {
    sp.Master?
  }

  /** The Python value passed as the `simulated` / `ranked` selector. */
  datatype Selector = Flag(value: bool) | NoSelector | NotABool

  /** `getSimJobs`: the population members, optionally only those with
      (`Flag(true)`) or without (`Flag(false)`) a cost. */
  function GetSimJobs(s: State, simulated: Selector): (r: Result<set<StatePoint>, PyError>)
    ensures r.Failure? <==> simulated.NotABool?
    ensures r.Failure? ==> r.error == ValueError
    ensures simulated.Flag? ==>
      r.value == set sp | sp in s.jobs && !IsMaster(sp) && s.jobs[sp].cost.Some? == simulated.value
    ensures simulated.NoSelector? ==> r.value == set sp | sp in s.jobs && !IsMaster(sp)
  {
    match simulated
    case Flag(b) =>
      FindMembersOne(s.jobs, CostExists(b));
      Success(FindMembers(s.jobs, [CostExists(b)]))
    case NoSelector => Success(FindMembers(s.jobs, []))
    case NotABool => Failure(ValueError)
  }

  /** Label `optimized`: past the generation ceiling, or flagged by calcCost. */
  predicate Optimized(s: State)
  {
    if s.project.n > MaxNumGenerations then true else s.project.optimized
  }

  /** Label `simulated`: for the master, no member anywhere in the store
      lacks a cost; for a member, it has one. */
  predicate Simulated(s: State, sp: StatePoint)
    requires sp in s.jobs
    ensures !IsMaster(sp) ==> (Simulated(s, sp) <==> s.jobs[sp].cost.Some?)
    // for the master: every member, of any generation, has a cost
    ensures IsMaster(sp) ==> (Simulated(s, sp) <==> AllMembersCosted(s))
  {
    if IsMaster(sp) then
      UncostedEmptyIff(s);
      |GetSimJobs(s, Flag(false)).value| == 0
    else s.jobs[sp].cost.Some?
  }

  /** Label `inGeneration`: a member whose `generation` is the project's `n`.
      For the master the Python function falls through and returns `None`,
      which flow reads as false. */
  predicate InGeneration(s: State, sp: StatePoint)
    requires sp in s.jobs
    // the label agrees with the query nextGeneration ranks
    ensures InGeneration(s, sp) <==> sp in GenerationMembers(s)
  {
    FindMembersOne(s.jobs, GenerationIs(s.project.n));
    if !IsMaster(sp) then
      if s.jobs[sp].generation.Some? then s.jobs[sp].generation.value == s.project.n else false
    else false
  }

  /** `getRankJobs`: with a flag, the members of the current generation with
      or without a `rank`; without one, every member. */
  function GetRankJobs(s: State, ranked: Selector): (r: Result<set<StatePoint>, PyError>)
    ensures r.Failure? <==> ranked.NotABool?
    ensures r.Failure? ==> r.error == ValueError
    // no live operation writes `rank`, so asking for ranked jobs finds none
    ensures ranked == Flag(true) ==> r == Success({})
    // the unranked jobs are exactly the jobs the `inGeneration` label holds for
    ensures ranked == Flag(false) ==> r.value == set sp | sp in s.jobs && InGeneration(s, sp)
    ensures ranked.NoSelector? ==> r.value == set sp | sp in s.jobs && !IsMaster(sp)
  {
    var genNum := s.project.n;
    match ranked
    case Flag(b) =>
      FindMembersTwo(s.jobs, RankExists(b), GenerationIs(genNum));
      NothingIsRanked(s.jobs, GenerationIs(genNum));
      Success(FindMembers(s.jobs, [RankExists(b), GenerationIs(genNum)]))
    case NoSelector => Success(FindMembers(s.jobs, []))
    case NotABool => Failure(ValueError)
  }

  /** Every population member in the store has a cost. */
  predicate AllMembersCosted(s: State)
  {
    forall sp | sp in s.jobs && !IsMaster(sp) :: s.jobs[sp].cost.Some?
  }

  /** `getSimJobs(job, simulated=False)` is empty exactly when every member,
      of any generation, has a cost. */
  lemma UncostedEmptyIff(s: State)
    ensures |GetSimJobs(s, Flag(false)).value| == 0 <==> AllMembersCosted(s)
  {
    var uncosted := GetSimJobs(s, Flag(false)).value;
    if !AllMembersCosted(s) {
      var sp :| sp in s.jobs && !IsMaster(sp) && s.jobs[sp].cost.None?;
      assert sp in uncosted;
    } else {
      assert uncosted == {};
    }
  }

  // ---------------------------------------------------------------- calcCost

  predicate CalcCostEligible(s: State, sp: StatePoint)
  {
    sp in s.jobs && !Optimized(s) && !IsMaster(sp) && s.jobs[sp].cost.None?
  }

  /** `calcCost`: writes the member's cost and sets the project's `optimized`
      flag when the cost is 0. A `None` code raises TypeError and a length
      numpy cannot broadcast raises ValueError, both before any write. */
  function CalcCost(s: State, sp: StatePoint): (o: Outcome)
    requires CalcCostEligible(s, sp)
    ensures o.Raised? <==> sp.code.None? || !Fitness.Broadcastable(|sp.code.value|, |sp.goal|)
    // `[ord(i) for i in None]` raises TypeError; numpy raises ValueError for lengths it cannot broadcast
    ensures o.Raised? ==> o.error == (if sp.code.None? then TypeError else ValueError)
    ensures o.Raised? ==> o.state == s
    ensures o.Finished? ==>
      var t := o.state;
      && t.jobs.Keys == s.jobs.Keys
      && t.jobs[sp].cost.Some?
      && Fitness.CalcCost(sp.code.value, sp.goal) == Success(t.jobs[sp].cost.value)
      && t.jobs[sp].generation == s.jobs[sp].generation
      // no other job's document changes
      && (forall k | k in s.jobs && k != sp :: t.jobs[k] == s.jobs[k])
      // the label the operation promises now holds, so it cannot run again
      && Simulated(t, sp)
      && !CalcCostEligible(t, sp)
      && t.project.n == s.project.n
      // the flag is raised exactly by a zero cost
      && (t.project.optimized <==> t.jobs[sp].cost.value == 0)
  {
    match sp.code
    case None => Raised(TypeError, s)
    case Some(code) =>
      match Fitness.CalcCost(code, sp.goal)
      case Failure(e) => Raised(e, s)
      case Success(cost) =>
        var jobs := s.jobs[sp := s.jobs[sp].(cost := Some(cost))];
        var project := if cost == 0 then s.project.(optimized := true) else s.project;
        Finished(State(project, jobs))
  }

  /** Costing two different members commutes as long as neither cost is 0; a
      zero cost sets the flag and disables every further costing. */
  lemma CalcCostsCommute(s: State, a: StatePoint, b: StatePoint)
    requires a != b && CalcCostEligible(s, a) && CalcCostEligible(s, b)
    requires CalcCost(s, a).Finished? && CalcCost(s, b).Finished?
    requires CalcCost(s, a).state.jobs[a].cost != Some(0)
    requires CalcCost(s, b).state.jobs[b].cost != Some(0)
    ensures CalcCostEligible(CalcCost(s, a).state, b) && CalcCostEligible(CalcCost(s, b).state, a)
    ensures CalcCost(CalcCost(s, a).state, b) == CalcCost(CalcCost(s, b).state, a)
  {
  }

  // ---------------------------------------------------------- nextGeneration

  predicate NextGenerationEligible(s: State, sp: StatePoint)
  {
    sp in s.jobs && !Optimized(s) && IsMaster(sp) && Simulated(s, sp)
  }

  /** The members `find_jobs` returns for the current generation. */
  function GenerationMembers(s: State): set<StatePoint>
  {
    FindMembers(s.jobs, [GenerationIs(s.project.n)])
  }

  /** `listing` enumerates `members` once each, in `find_jobs`' order. */
  predicate IsListing(listing: seq<StatePoint>, members: set<StatePoint>)
  {
    NoDup(listing) && Elems(listing) == members
  }

  /** Every listed job is a costed member of the store. */
  predicate CostedMembers(s: State, listing: seq<StatePoint>)
  {
    forall i | 0 <= i < |listing| ::
      listing[i] in s.jobs && listing[i].Member? && s.jobs[listing[i]].cost.Some?
  }

  /** The record `(job.get_id(), job.document.cost)`. */
  function EntryFor(s: State, idOf: StatePoint -> JobId, sp: StatePoint): Entry
    requires sp in s.jobs && s.jobs[sp].cost.Some?
  {
    Entry(sp, idOf(sp), s.jobs[sp].cost.value)
  }

  /** `costList`, in listing order. */
  function Entries(s: State, idOf: StatePoint -> JobId, listing: seq<StatePoint>): (es: seq<Entry>)
    requires CostedMembers(s, listing)
    ensures |es| == |listing|
    ensures forall i | 0 <= i < |listing| :: es[i] == EntryFor(s, idOf, listing[i])
  {
    seq(|listing|, i requires 0 <= i < |listing| && CostedMembers(s, listing) => EntryFor(s, idOf, listing[i]))
  }

  predicate AllMembers(ranked: seq<Entry>)
  {
    forall i | 0 <= i < |ranked| :: ranked[i].job.Member?
  }

  /** The sorted array of nextGeneration. */
  function Ranked(s: State, idOf: StatePoint -> JobId, listing: seq<StatePoint>): (r: seq<Entry>)
    requires CostedMembers(s, listing) && NoDup(listing)
    ensures Sorted(r)
    ensures |r| == |listing|
    ensures NoDup(r)
    // a permutation of the listed jobs: each exactly once
    ensures (set e | e in r :: e.job) == Elems(listing)
    ensures forall i, j | 0 <= i < j < |r| :: r[i].job != r[j].job
    // each record carries its job's id and stored cost
    ensures forall e | e in r ::
      e.job in s.jobs && e.job.Member? && s.jobs[e.job].cost == Some(e.cost) && e.id == idOf(e.job)
    ensures AllMembers(r)
  {
    var es := Entries(s, idOf, listing);
    EntriesFacts(s, idOf, listing);
    SortKeepsElements(es);
    var r := Sort(es);
    forall e | e in r ensures e in es {
      assert e in Elems(r);
    }
    forall e | e in es ensures e in r {
      assert e in Elems(es);
    }
    assert (set e | e in r :: e.job) == (set e | e in es :: e.job);
    forall i, j | 0 <= i < j < |r| ensures r[i].job != r[j].job {
      assert r[i] in es && r[j] in es;
      assert r[i] != r[j];
    }
    r
  }

  lemma EntriesFacts(s: State, idOf: StatePoint -> JobId, listing: seq<StatePoint>)
    requires CostedMembers(s, listing) && NoDup(listing)
    ensures NoDup(Entries(s, idOf, listing))
    ensures (set e | e in Entries(s, idOf, listing) :: e.job) == Elems(listing)
    ensures forall e | e in Entries(s, idOf, listing) ::
      e.job in s.jobs && e.job.Member? && s.jobs[e.job].cost == Some(e.cost) && e.id == idOf(e.job)
  {
  }

  /** What a parent whose mutation coin fails passes on to its child. */
  datatype SkipPolicy =
    | ChildCodeNone        // the code as written: the child's code is `_mutate`'s `None`
    | ChildKeepsParentCode // the child inherits the parent's code unchanged

  /** The code `util._mutate(lJob.sp.code, 0.5)` gives a child. For a `None`
      parent code the coin is still drawn first; `len(None)` then raises. */
  function ChildCode(code: Option<string>, d: Genetic.Draw, policy: SkipPolicy): (r: Result<Option<string>, PyError>)
    requires Genetic.ValidDraw(d)
    ensures d.coin > MutationProbability ==>
      r == Success(if policy == ChildCodeNone then None else code)
    ensures d.coin <= MutationProbability && code.Some? && |code.value| > 0 ==>
      r.Success? && r.value.Some? &&
      Genetic.MutatedAt(code.value, r.value.value,
        Genetic.MutationIndex(d.pos, |code.value|), Genetic.Direction(d.dir))
    ensures d.coin <= MutationProbability && code.None? ==> r == Failure(TypeError)
    ensures d.coin <= MutationProbability && code == Some("") ==> r == Failure(IndexError)
  {
    var skipped := if policy == ChildCodeNone then None else code;
    match code
    case None => if d.coin > MutationProbability then Success(skipped) else Failure(TypeError)
    case Some(c) =>
      match Genetic.Mutate(c, MutationProbability, d)
      case Success(None) => Success(skipped)
      case Success(Some(m)) => Success(Some(m))
      case Failure(e) => Failure(e)
  }

  /** The child state point bred from a member: the mutated code, and the
      parent's goal, seed, and goal length. */
  function ChildOf(parent: StatePoint, d: Genetic.Draw, policy: SkipPolicy): (r: Result<StatePoint, PyError>)
    requires parent.Member? && Genetic.ValidDraw(d)
    ensures r.Success? <==> ChildCode(parent.code, d, policy).Success?
    ensures r.Failure? ==> r.error == ChildCode(parent.code, d, policy).error
    ensures r.Success? ==>
      && r.value.Member?
      && r.value.goal == parent.goal
      && r.value.seed == parent.seed
      && r.value.length == |parent.goal|
      && r.value.code == ChildCode(parent.code, d, policy).value
  {
    match ChildCode(parent.code, d, policy)
    case Success(code) => Success(Member(|parent.goal|, parent.goal, code, parent.seed))
    case Failure(e) => Failure(e)
  }

  /** The children bred from `ranked` in order, up to the first parent whose
      mutation raises, and that exception. */
  function Offspring(ranked: seq<Entry>, draws: seq<Genetic.Draw>, policy: SkipPolicy): (r: (seq<StatePoint>, Option<PyError>))
    requires AllMembers(ranked) && |draws| == |ranked| && Genetic.ValidDraws(draws)
    ensures |r.0| <= |ranked|
    ensures r.1.None? <==> |r.0| == |ranked|
    ensures forall i | 0 <= i < |r.0| :: ChildOf(ranked[i].job, draws[i], policy) == Success(r.0[i])
    ensures r.1.Some? ==> ChildOf(ranked[|r.0|].job, draws[|r.0|], policy) == Failure(r.1.value)
    decreases |ranked|
  {
    if |ranked| == 0 then ([], None)
    else
      match ChildOf(ranked[0].job, draws[0], policy)
      case Failure(e) => ([], Some(e))
      case Success(child) =>
        var rest := Offspring(ranked[1..], draws[1..], policy);
        ([child] + rest.0, rest.1)
  }

  /** Open each child and set its generation to `g`. */
  function WriteGenerations(jobs: Jobs, children: seq<StatePoint>, g: int): (r: Jobs)
    ensures r.Keys == jobs.Keys + Elems(children)
    ensures forall c | c in children :: r[c].generation == Some(g)
    // costs survive; jobs created here have none
    ensures forall k | k in r :: r[k].cost == (if k in jobs then jobs[k].cost else None)
    ensures forall k | k in jobs && k !in children :: r[k] == jobs[k]
    decreases |children|
  {
    if |children| == 0 then jobs
    else
      var r := WriteGenerations(SetGeneration(jobs, children[0], g), children[1..], g);
      assert Elems(children) == {children[0]} + Elems(children[1..]);
      r
  }

  /** Every job created or changed from `before` to `after` is a member whose
      generation is now `g`. */
  predicate WritesOnlyGeneration(before: Jobs, after: Jobs, g: int)
  {
    forall sp | sp in after && (sp !in before || after[sp] != before[sp]) ::
      sp.Member? && after[sp].generation == Some(g)
  }

  /** The jobs whose `generation` became `g`: created with it, or re-tagged. */
  function Promoted(before: Jobs, after: Jobs, g: int): set<StatePoint>
  {
    set sp | sp in after && after[sp].generation == Some(g) &&
             (sp !in before || before[sp].generation != Some(g))
  }

  /** What breeding from `ranked` with `draws` promises about its outcome `o`:
      - `n` advances exactly when no exception ended the breeding, and an
        exception leaves the project document as it was;
      - no job disappears, no cost changes, and jobs created have no cost;
      - every job created or changed is a member now in generation `n + 1`,
        and at most one job per ranked parent enters that generation;
      - it raises exactly when some parent's `_mutate` call raises; without
        an exception every ranked job's child is in generation `n + 1`;
      - the only jobs created or changed are children of ranked parents;
      - an exception is that of the first parent whose `_mutate` call
        raises, and only the children of the parents ranked before it are
        written. */
  predicate Bred(s: State, ranked: seq<Entry>, draws: seq<Genetic.Draw>, policy: SkipPolicy, o: Outcome)
    requires AllMembers(ranked) && |draws| == |ranked| && Genetic.ValidDraws(draws)
  {
    && (o.Finished? ==> o.state.project == s.project.(n := s.project.n + 1))
    && (o.Raised? ==> o.state.project == s.project)
    && s.jobs.Keys <= o.state.jobs.Keys
    && (forall sp | sp in o.state.jobs ::
         o.state.jobs[sp].cost == (if sp in s.jobs then s.jobs[sp].cost else None))
    && WritesOnlyGeneration(s.jobs, o.state.jobs, s.project.n + 1)
    && |Promoted(s.jobs, o.state.jobs, s.project.n + 1)| <= |ranked|
    && (o.Finished? <==> forall i | 0 <= i < |ranked| :: ChildOf(ranked[i].job, draws[i], policy).Success?)
    && (o.Finished? ==>
         forall i | 0 <= i < |ranked| ::
           ChildOf(ranked[i].job, draws[i], policy).Success? &&
           var child := ChildOf(ranked[i].job, draws[i], policy).value;
           child in o.state.jobs && o.state.jobs[child].generation == Some(s.project.n + 1))
    && (forall sp | sp in o.state.jobs && sp !in s.jobs ::
         exists i | 0 <= i < |ranked| :: ChildOf(ranked[i].job, draws[i], policy) == Success(sp))
    && (forall sp | sp in s.jobs && o.state.jobs[sp] != s.jobs[sp] ::
         exists i | 0 <= i < |ranked| :: ChildOf(ranked[i].job, draws[i], policy) == Success(sp))
    && (forall k | 0 <= k < |ranked| && FirstRaise(ranked, draws, policy, k) ::
         && o.Raised?
         && o.error == ChildOf(ranked[k].job, draws[k], policy).error
         && (forall sp | sp in o.state.jobs && (sp !in s.jobs || o.state.jobs[sp] != s.jobs[sp]) ::
              exists i | 0 <= i < k :: ChildOf(ranked[i].job, draws[i], policy) == Success(sp)))
  }

  /** Parent `k` is the first ranked parent whose `_mutate` call raises. */
  predicate FirstRaise(ranked: seq<Entry>, draws: seq<Genetic.Draw>, policy: SkipPolicy, k: int)
    requires AllMembers(ranked) && |draws| == |ranked| && Genetic.ValidDraws(draws)
  {
    && 0 <= k < |ranked|
    && ChildOf(ranked[k].job, draws[k], policy).Failure?
    && forall i | 0 <= i < k :: ChildOf(ranked[i].job, draws[i], policy).Success?
  }

  /** The breeding loop stops exactly at the first parent that raises. */
  lemma FirstRaiseEndsOffspring(ranked: seq<Entry>, draws: seq<Genetic.Draw>, policy: SkipPolicy, k: int)
    requires AllMembers(ranked) && |draws| == |ranked| && Genetic.ValidDraws(draws)
    requires FirstRaise(ranked, draws, policy, k)
    ensures |Offspring(ranked, draws, policy).0| == k
    ensures Offspring(ranked, draws, policy).1 == Some(ChildOf(ranked[k].job, draws[k], policy).error)
  {
  }

  /** The breeding half of nextGeneration: one child per ranked job, written
      into generation `n + 1`; `n` advances only if no `_mutate` call raised. */
  function Breed(s: State, ranked: seq<Entry>, draws: seq<Genetic.Draw>, policy: SkipPolicy): (o: Outcome)
    requires AllMembers(ranked) && |draws| == |ranked| && Genetic.ValidDraws(draws)
    ensures Bred(s, ranked, draws, policy, o)
  {
    var offspring := Offspring(ranked, draws, policy);
    var jobs := WriteGenerations(s.jobs, offspring.0, s.project.n + 1);
    WritePromotesAtMost(s.jobs, offspring.0, s.project.n + 1);
    forall sp | sp in jobs && (sp !in s.jobs || jobs[sp] != s.jobs[sp])
      ensures exists i | 0 <= i < |offspring.0| :: ChildOf(ranked[i].job, draws[i], policy) == Success(sp)
    {
      var i :| 0 <= i < |offspring.0| && offspring.0[i] == sp;
      assert ChildOf(ranked[i].job, draws[i], policy) == Success(sp);
    }
    forall k | 0 <= k < |ranked| && FirstRaise(ranked, draws, policy, k)
      ensures |offspring.0| == k && offspring.1 == Some(ChildOf(ranked[k].job, draws[k], policy).error)
    {
      FirstRaiseEndsOffspring(ranked, draws, policy, k);
    }
    match offspring.1
    case Some(e) => Raised(e, State(s.project, jobs))
    case None => Finished(State(s.project.(n := s.project.n + 1), jobs))
  }

  /** `nextGeneration`: rank the current generation by `(cost, id)`, breed one
      mutated child per ranked job into generation `n + 1`, then advance `n`.
      `listing` is the order `find_jobs` returns the generation in, and
      `draws[i]` are the draws of the i-th ranked parent's `_mutate` call. */
  function NextGeneration(s: State, idOf: StatePoint -> JobId, master: StatePoint,
                          listing: seq<StatePoint>, draws: seq<Genetic.Draw>, policy: SkipPolicy): (o: Outcome)
    requires NextGenerationEligible(s, master)
    requires IsListing(listing, GenerationMembers(s))
    requires |draws| == |listing| && Genetic.ValidDraws(draws)
    // the generation is fully costed, so it can be ranked
    ensures CostedMembers(s, listing)
    // the outcome is that of breeding from the ranking (see Bred)
    ensures Bred(s, Ranked(s, idOf, listing), draws, policy, o)
  {
    GenerationIsCosted(s, master, listing);
    Breed(s, Ranked(s, idOf, listing), draws, policy)
  }

  /** When nextGeneration may run, the generation it ranks is fully costed. */
  lemma GenerationIsCosted(s: State, master: StatePoint, listing: seq<StatePoint>)
    requires NextGenerationEligible(s, master)
    requires IsListing(listing, GenerationMembers(s))
    ensures CostedMembers(s, listing)
  {
    forall i | 0 <= i < |listing|
      ensures listing[i] in s.jobs && listing[i].Member? && s.jobs[listing[i]].cost.Some?
    {
      assert listing[i] in Elems(listing);
    }
  }

  /** Writing k children moves at most k jobs into generation `g`. */
  lemma WritePromotesAtMost(jobs: Jobs, children: seq<StatePoint>, g: int)
    ensures Promoted(jobs, WriteGenerations(jobs, children, g), g) <= Elems(children)
    ensures |Promoted(jobs, WriteGenerations(jobs, children, g), g)| <= |children|
  {
    ElemsCardinality(children);
    SubsetCardinality(Promoted(jobs, WriteGenerations(jobs, children, g), g), Elems(children));
  }

  lemma SubsetCardinality<T>(a: set<T>, b: set<T>)
    requires a <= b
    ensures |a| <= |b|
  {
    assert b == a + (b - a);
  }

  /** `find_jobs` may list the generation in any order: when ids identify
      jobs, the ranking comes out the same. */
  lemma RankingIgnoresListingOrder(s: State, idOf: StatePoint -> JobId, l1: seq<StatePoint>, l2: seq<StatePoint>)
    requires CostedMembers(s, l1) && NoDup(l1)
    requires CostedMembers(s, l2) && NoDup(l2)
    requires Elems(l1) == Elems(l2)
    requires forall a, b | a in l1 && b in l1 && a != b :: idOf(a) != idOf(b)
    ensures Ranked(s, idOf, l1) == Ranked(s, idOf, l2)
  {
    var r1 := Ranked(s, idOf, l1);
    var r2 := Ranked(s, idOf, l2);
    forall e | e in r1 ensures e in r2 {
      assert e.job in Elems(l1);
      var f :| f in r2 && f.job == e.job;
    }
    forall e | e in r2 ensures e in r1 {
      assert e.job in Elems(l2);
      var f :| f in r1 && f.job == e.job;
    }
    assert Elems(r1) == Elems(r2);
    forall x, y | x in r1 && y in r1 && x.id == y.id ensures x == y {
      assert x.job in Elems(l1) && y.job in Elems(l1);
    }
    SortedUnique(r1, r2);
  }
}

=== FILE: wrappers.dfy ===
/** Failure-carrying datatypes shared by every module of the model. */
module Wrappers {

  /** Python's `None` or a present value. */
  datatype Option<+T> = None | Some(value: T)

  /** A value, or the exception the Python code raises instead of returning. */
  datatype Result<+T, +E> = Success(value: T) | Failure(error: E)
}
